=== FILE: README.md ===
# Stock signal script — Dafny model

This project models the decision logic of a small Node.js script. The script
lists tradable NYSE equities from a brokerage API and fetches 4-hour price
bars for each one, through a paginated, throttled endpoint and a file cache
that expires by age. It flags the symbols whose latest close, EMA(200) and
MACD satisfy a fixed four-part rule, and builds spreadsheet tables from the
results. Two versions are modelled:

- the current one: `api.js`, `utils.js`, `main.js` and `report.js`;
- the older single-file `index.js`.

Every outside effect is an input:

- the listing response;
- a finite sequence of page responses, each with the time it took;
- the clock at the cache check and at the cache write, and whether the write succeeds;
- the indicator library, as a function from bars to series.

The file cache is a map from file name to parsed content and modification
time.

Modules: `Wrappers` (Option/Result), `Seqs` (filter, map, subsequence),
`Market` (records), `Utils` (cache store), `CacheFiles` (cache file name),
`Pagination` (the page loop and throttle), `Api` (listing and bar fetcher),
`Signal` (selection rule and main loop), `Report` (report tables and cell
formats), `Legacy` (`index.js`).

Three facts about the code shape the model:

- The rule looks only at the latest MACD point. It requires
  MACD > signal and signal < 0, plus close > EMA and close > 1.03 × EMA.
  It has no crossover test against the previous point, and MACD itself
  need not be negative.
- Bars are used as fetched; no step aggregates them into longer bars.
- Nothing computes the debug flags. `saveDebugReport` only lays out the
  records it is given.

## Model

| member | source | states |
|---|---|---|
| Utils.Stat | api.js:48 | stats exist exactly when the cache file exists |
| Utils.IsCacheValid | utils.js:29-31 | valid exactly when there are file stats and the file was modified strictly after the cutoff `now − hours × 3600000` |
| Utils.ReadCache | utils.js:15-22 | yields nothing exactly when the file is missing or unreadable/unparsable, otherwise the parsed content; never fails |
| Utils.WriteCache | utils.js:24-27 | the written file is added to (or replaces one in) the cache; no other file appears or disappears |
| Utils.NoStatsNeverValid | utils.js:29-31 | without file stats the cache is never valid |
| Utils.ExpiryBoundaryIsStale | utils.js:30 | a file exactly `hours × 3600000` ms old is stale (strict comparison) |
| Utils.ValidityMonotone | utils.js:30 | a file valid at some age is valid at every smaller age |
| Utils.WriteThenRead | utils.js:15-27 | reading right after writing returns the written value, whatever was there; its mtime is the write time |
| Utils.WriteLeavesOthers | utils.js:24-27 | writing one file leaves the content and stats of every other file unchanged |
| Utils.WriteOverwrites | utils.js:26 | a second write to the same file replaces the first, nothing is merged |
| CacheFiles.Decimal | api.js:45 | the limit renders as a non-empty all-digit string |
| CacheFiles.DecimalRoundTrip | api.js:45 | parsing the rendered limit gives the limit back |
| CacheFiles.CacheKey | api.js:45 | the file name starts with the symbol and ends with `.json` |
| CacheFiles.KeyIgnoresDates | api.js:43-45 | requests agreeing on symbol, timeframe, limit, adjustment and feed share a cache file whatever their dates |
| CacheFiles.KeyDeterminesFields | api.js:45 | with `_`-free parameters, two requests share a cache file if and only if they agree on the five key parameters |
| Pagination.ThrottleDelay | api.js:75-77 | the sleep is never negative, makes elapsed + sleep ≥ the wait, is zero when elapsed ≥ wait and tops up exactly to the wait otherwise |
| Pagination.FirstStop | api.js:84-87 | the loop stops at the first response that is not an ok page with a truthy `next_page_token`; all earlier ones continue |
| Pagination.FirstStopAt | api.js:84-87 | the stop is exactly the first response that does not continue the loop |
| Pagination.PagesFrom | api.js:58-87 | the first request carries the token the loop was entered with; there are as many sleeps as requests or one fewer, and exactly as many when the run succeeds |
| Pagination.PagesFromRun | api.js:58-87 | from request i: one request per response up to the stop, each later request carries the previous page's token, success iff the stop is an ok page, bars are the pages' bars in order, one sleep per request except a rejected fetch |
| Pagination.PagesFromTokens | api.js:58-87 | one request per response up to the stop; after the first, each request carries the previous response's truthy token |
| Pagination.PagesFromOutcome | api.js:79-87 | the run succeeds exactly when the stop is an ok page, and its bars are the pages' bars in response order |
| Pagination.PagesFromSleeps | api.js:75-82 | one throttle sleep per answered request, each the delay for that request's elapsed time |
| Pagination.FetchPages | api.js:55-87 | first request carries no token, later ones a truthy token; request count is stop index + 1; on success the bars are the concatenated pages up to the first tokenless one; sleeps are the throttle delays, also after an error response |
| Pagination.PaginationTerminates | api.js:58-87 | N pages with a token on all but the last take exactly N requests and return all their bars in order |
| Pagination.StopIgnoresLaterResponses | api.js:86-87 | responses after the one the loop stops at never affect the run |
| Pagination.AgreeingRemotes | api.js:58-87 | two remotes that answer alike up to the stop give the same run |
| Pagination.ErrorAborts | api.js:79-82 | a non-ok response after continuing pages fails the run after exactly that many requests |
| Api.GetStocks | api.js:21-33 | on an ok listing, exactly the tradable assets whose symbol has no `/`, each as many times as it is listed; on any failure the empty list |
| Api.Listable | api.js:29 | an asset is kept exactly when it is tradable and no character of its symbol is `/` |
| Api.StocksInListingOrder | api.js:29 | the kept assets keep listing order |
| Api.FetchLive | api.js:55-95 | the live path returns the pages' bars and writes `{bars}` only when every page and the write succeed, otherwise returns `[]` with the cache untouched |
| Api.GetStockBars | api.js:36-96 | a fresh usable entry is returned unchanged with zero requests; otherwise the requests and sleeps are exactly the page loop's; the cache changes only by one write of the returned bars after full success; a failing page returns `[]` and discards earlier pages; a failing cache write returns `[]` and leaves the cache as it was; sleeps are never negative |
| Api.SecondCallHitsCache | api.js:45-53 | after a successful fetch, a call within the window for the same five parameters returns the same bars with no request |
| Api.UnusableFreshEntryRefetches | api.js:50-53 | a fresh entry that is unreadable, unparsable or falsy falls through to the live fetch |
| Signal.SignalRule | main.js:22-27 | the rule holds exactly when the close exceeds the larger of the EMA and 1.03 × EMA, the signal is negative and MACD exceeds the signal |
| Signal.Selected | main.js:17-27 | a selected stock has at least 200 bars and non-empty indicator series, and its last close, EMA and MACD point satisfy the rule; too little history is never selected |
| Signal.ResultOf | main.js:28-34 | the pushed record carries the listing symbol and name, the last close, last EMA value and last MACD point, and they satisfy the rule |
| Signal.Select | main.js:14-36 | no more results than candidates |
| Signal.SelectMembers | main.js:14-36 | every selected candidate's record is in the results and every result comes from a selected candidate |
| Signal.ResultsInCandidateOrder | main.js:14-35 | result symbols are an order-preserving subsequence of the candidates' symbols |
| Signal.ShortHistoryIgnored | main.js:17 | a stock with missing bars or fewer than 200 bars never changes the results, wherever it sits |
| Signal.AboveEmaRedundant | main.js:22-27 | with a non-negative EMA the rule reduces to its last three conjuncts |
| Signal.AboveEmaNeededWhenNegative | main.js:23-26 | with a negative EMA the 3% conjunct does not imply the plain one |
| Signal.MacdMayBeNonNegative | main.js:24-25 | a non-negative MACD above a negative signal qualifies |
| Signal.Visit | main.js:15-19 | a candidate holds the stock, the bars `getStockBars` returned for its symbol with the 4H/1000/raw/sip defaults, and the indicators of those bars when there are 200 of them; the cache is the one that call left |
| Signal.Gather | main.js:14-20 | the loop visits the stocks in order, one candidate per stock |
| Signal.RunMain | main.js:8-44 | every result comes from a listable listed asset with its name; the report table is built once from the complete results |
| Signal.ResultsFromAssets | main.js:28-35 | every result carries the symbol and name of the asset of the candidate it came from |
| Signal.ResultsInListingOrder | main.js:10-35 | result symbols are an order-preserving subsequence of the listed symbols |
| Report.ResultRow | report.js:29-36 | a result row has the header's six columns |
| Report.MatchingStocksTable | report.js:26-37 | the header row, then one row per result in input order |
| Report.Lookup | report.js:14 | a missing key reads as undefined; a defined value comes from the record under that key |
| Report.DumpRow | report.js:14 | a dump row has one cell per header key, each the record's value under that key |
| Report.DumpTable | report.js:7-16 | fails on empty input; otherwise `data.length + 1` rows, row 0 the first record's keys, then one row per record |
| Report.DumpRoundTrip | report.js:7-16 | when every record has the first record's keys, each data row is exactly that record's values |
| Report.DebugRow | report.js:92-103 | a debug row has the debug header's ten columns |
| Report.DebugTable | report.js:89-104 | header then one ten-column row per record; the last four cells are the four flags in header order |
| Report.DebugExtendsMatching | report.js:26-37 | the debug header and rows begin with the matching report's six columns |
| Report.FormatOf | report.js:60-79 | row 0 or column 0 get the header style (taking precedence); otherwise columns 2–3 currency, columns ≥ 4 number, column 1 nothing |
| Report.Width | report.js:53 | the range is wide enough for every row |
| Report.CellExists | report.js:58 | positions outside the table and undefined values are skipped; every other position holds a cell |
| Report.ApplyFormats | report.js:53-81 | exactly the existing cells with a style get one, and it is the style of their position |
| Report.GenerateExcelReport | report.js:25-81 | the sheet holds the matching-stocks table, formatted cell by cell |
| Report.SaveDebugReport | report.js:88-148 | the sheet holds the debug table, formatted cell by cell |
| Report.MatchingSheetFormats | report.js:60-79 | in each result row: symbol header-styled, name untouched, price and EMA currency, MACD and signal number |
| Report.DebugFlagsGetNumberFormat | report.js:125-146 | the boolean flag columns of the debug sheet receive the number format |
| Legacy.GetStocksLegacy | index.js:42-54 | on an ok listing, exactly the tradable assets, `/` symbols included, each as many times as it is listed; on failure the empty list |
| Legacy.NewListingDropsSlashes | index.js:50 | the newer listing is the legacy listing with `/` symbols filtered out |
| Legacy.ListingsAgreeWithoutSlashes | index.js:50 | without `/` symbols the two listings are equal |
| Legacy.LegacyCachedBars | index.js:76-79 | a fresh file that cannot be read or parsed, or holds `null`, gives `[]`; another falsy value gives `undefined`; a truthy value gives its `bars` |
| Legacy.LegacyWritable | index.js:116-117 | a cache file name can be written exactly when it contains no `/` |
| Legacy.GetStockBarsLegacy | index.js:59-124 | a fresh cache file ends the call with that file's cached value, no request and no write; otherwise the requests and sleeps are exactly the page loop's; a write only after full success and only under a file name without `/`; a file name containing `/` fetched live returns `[]` and writes nothing, since only the cache directory itself is created |
| Legacy.SlashInKey | index.js:71 | a `/` in the symbol puts a `/` in the cache file name |
| Legacy.FetchersAgree | index.js:73-123 | outside fresh hits and on usable fresh hits, for a file name without `/`, the legacy fetcher equals the newer one with 8 h / 333 ms |
| Legacy.SlashSymbolDiverges | index.js:116-122 | for a `/` symbol whose live fetch succeeds, the legacy fetcher returns `[]` and keeps the cache while the newer one returns the bars |
| Legacy.CorruptFreshCacheDiverges | index.js:76-79 | a fresh unparsable file: legacy returns `[]` without a request, the newer version refetches |
| Legacy.LegacyResultOf | index.js:166-171 | the legacy record has the symbol, last close, last EMA and last MACD point, and no name |
| Legacy.SelectLegacy | index.js:152-180 | no more results than candidates |
| Legacy.SelectLegacyMembers | index.js:152-180 | the legacy results are exactly the nameless records of the selected candidates, none with a name |
| Legacy.LegacyResultsDropName | index.js:155-171 | the legacy results are the newer results with the name dropped: same skip, same rule |
| Legacy.VisitLegacy | index.js:153-157 | a candidate holds the stock, the bars the legacy `getStockBars` returned for its symbol, and the indicators of those bars when there are 200 of them; the cache is the one that call left |
| Legacy.GatherLegacy | index.js:152-158 | the legacy loop visits the stocks in order, one candidate per stock |
| Legacy.RunMainLegacy | index.js:147-183 | every legacy result satisfies the rule, carries no name and comes from a tradable listed asset; there are at most as many as listed stocks |
| Legacy.LegacyResultsInListingOrder | index.js:147-183 | legacy result symbols are an order-preserving subsequence of the listed symbols |

## Left out

- HTTP transport, URL and query building, and headers. Responses are an abstract sequence of exchanges.
- A request past the end of that sequence is modelled as a rejected fetch, so the remote cannot page forever.
- File-system primitives and JSON text. A cache file is its parsed value: `null`, another falsy value, or a truthy value with or without `bars`.
- Cache files whose `bars` is not an array of bars, and pages whose `bars` is `null`, are not modelled.
- `path.join` normalisation of the cache directory. The cache map is keyed by file name within one directory.
- Clocks and sleeping (`sleep`, `performance.now`, `Date.now`, the `moment` date range). Elapsed times, current times and dates are inputs.
- Directories already present inside the legacy cache directory are not modelled. A legacy file name with `/` is always unwritable.
- A failed `writeCache` is an input. The model assumes such a failure leaves the cache unchanged, and the call returns `[]`.
- `indicators.js` is not part of this model. The EMA/MACD library is an opaque function from bars to series, and its floating-point numerics are not modelled.
- Signal.Selected: an empty EMA series compares as undefined (false), as in the source. The source would throw on an empty MACD series when the first conjunct holds; the library never returns one for 200 bars, so the model reads it as not selected.
- Float rounding at the `1.03 × EMA` boundary. The rule uses exact reals.
- `config.js` environment loading and string-to-number coercion, including NaN when a setting is unset. The settings are real numbers.
- The XLSX library calls, column widths and file names. The model stops at the table and the per-cell format map.
- `Object.keys` ordering of integer-like keys in `dumpxls`. A record is its properties in enumeration order.
- Console logging, progress bars, `mkdir('charts')`, the unused `getStartDate` helpers and the top-level `main()` calls.

=== FILE: api.dfy ===
/** `api.js`: the asset listing and the cached, paginated bar fetcher. */
module Api {
  import opened Wrappers
  import opened Seqs
  import opened Market
  import opened Utils
  import opened CacheFiles
  import opened Pagination

  /** What the listing endpoint gave back. */
  datatype Listing =
    | ListingOk(assets: seq<Asset>)
    | ListingHttpError(status: int)   // `response.ok` is false
    | ListingFailed                   // `fetch` rejects or the body is not a JSON array

  /** The listing filter: tradable, and not a multi-leg `/` symbol. */
  function Listable(a: Asset): (kept: bool)
    ensures kept <==> a.tradable && forall i :: 0 <= i < |a.symbol| ==> a.symbol[i] != '/'
  {
    a.tradable && '/' !in a.symbol
  }

  /** `getStocks`: every failure is absorbed into the empty list. */
  function GetStocks(listing: Listing): (stocks: seq<Asset>)
    ensures listing.ListingOk? ==> forall a :: a in stocks <==> a in listing.assets && Listable(a)
    ensures listing.ListingOk? ==>
      forall a :: multiset(stocks)[a] == if Listable(a) then multiset(listing.assets)[a] else 0
    ensures !listing.ListingOk? ==> stocks == []
  {
    if listing.ListingOk? then FilterCounts(listing.assets, Listable); Filter(listing.assets, Listable) else []
  }

  /** The kept assets appear in listing order. */
  lemma StocksInListingOrder(listing: Listing)
    requires listing.ListingOk?
    ensures IsSubsequence(GetStocks(listing), listing.assets)
  {
    FilterIsSubsequence(listing.assets, Listable);
  }

  /** What one `getStockBars` call meets in the outside world: the clock at
      the cache check, the dates of the query, the remote, the clock at the
      cache write and whether that write succeeds. */
  datatype FetchEnv = FetchEnv(
    nowMs: real,
    startDate: string,
    endDate: string,
    remote: seq<Exchange>,
    writeMs: real,
    writeOk: bool)

  /** The value returned (None for `undefined`), the cache after the call,
      and the page tokens sent and sleeps taken by the loop. */
  datatype BarsOutcome = BarsOutcome(
    bars: Option<seq<Bar>>,
    store: Store,
    tokensSent: seq<Option<string>>,
    sleepsMs: seq<real>)

  /** The cache entry passes `isCacheValid`. */
  predicate Fresh(store: Store, key: string, nowMs: real, expirationHours: real)
  {
    IsCacheValid(Stat(store, key), nowMs, expirationHours)
  }

  /** `if (cacheData)`: the entry was read and parsed to a truthy value. */
  predicate UsableEntry(store: Store, key: string)
  {
    var data := ReadCache(store, key);
    data.Some? && data.value.JsonTruthy?
  }

  /** The live-fetch half of `getStockBars`, shared with the legacy script. */
  function FetchLive(store: Store, key: string, maxWaitMs: real, env: FetchEnv): (o: BarsOutcome)
    ensures var run := FetchPages(env.remote, maxWaitMs);
      && o.tokensSent == run.tokensSent
      && o.sleepsMs == run.sleepsMs
      && (o.store == store || (run.ok && env.writeOk))
      && (run.ok && env.writeOk ==>
            o.bars == Some(run.bars) && o.store == WriteCache(store, key, JsonTruthy(o.bars), env.writeMs))
      && (!(run.ok && env.writeOk) ==> o.bars == Some([]))
  {
    var run := FetchPages(env.remote, maxWaitMs);
    if run.ok && env.writeOk then
      BarsOutcome(Some(run.bars), WriteCache(store, key, JsonTruthy(Some(run.bars)), env.writeMs), run.tokensSent, run.sleepsMs)
    else
      BarsOutcome(Some([]), store, run.tokensSent, run.sleepsMs)
  }

  /** `getStockBars` for one request. */
  function GetStockBars(store: Store, cfg: Config, req: BarRequest, env: FetchEnv): (o: BarsOutcome)
    // A fresh, readable entry is returned unchanged and nothing is requested.
    ensures Fresh(store, CacheKey(req), env.nowMs, cfg.cacheExpirationHours) && UsableEntry(store, CacheKey(req)) ==>
      o == BarsOutcome(ReadCache(store, CacheKey(req)).value.bars, store, [], [])
    // Otherwise, fresh or not, the fetcher goes to the remote.
    ensures !(Fresh(store, CacheKey(req), env.nowMs, cfg.cacheExpirationHours) && UsableEntry(store, CacheKey(req))) ==>
      |o.tokensSent| > 0 && o.tokensSent[0] == None
    // Only a fully successful fetch writes the cache, once, under its own key.
    ensures o.store != store ==>
      && FetchPages(env.remote, cfg.maxWaitTimeMs).ok
      && o.bars == Some(FetchPages(env.remote, cfg.maxWaitTimeMs).bars)
      && o.store == WriteCache(store, CacheKey(req), JsonTruthy(o.bars), env.writeMs)
    // A fully successful live fetch is written back, then returned.
    ensures !(Fresh(store, CacheKey(req), env.nowMs, cfg.cacheExpirationHours) && UsableEntry(store, CacheKey(req)))
            && FetchPages(env.remote, cfg.maxWaitTimeMs).ok && env.writeOk ==>
      && o.bars == Some(FetchPages(env.remote, cfg.maxWaitTimeMs).bars)
      && o.store == WriteCache(store, CacheKey(req), JsonTruthy(o.bars), env.writeMs)
    // A failing page discards every page fetched before it.
    ensures |o.tokensSent| > 0 && !FetchPages(env.remote, cfg.maxWaitTimeMs).ok ==>
      o.bars == Some([]) && o.store == store
    ensures forall d :: d in o.sleepsMs ==> d >= 0.0
    // The live path makes exactly the loop's requests and sleeps.
    ensures !(Fresh(store, CacheKey(req), env.nowMs, cfg.cacheExpirationHours) && UsableEntry(store, CacheKey(req))) ==>
      && o.tokensSent == FetchPages(env.remote, cfg.maxWaitTimeMs).tokensSent
      && o.sleepsMs == FetchPages(env.remote, cfg.maxWaitTimeMs).sleepsMs
    // A failing cache write is caught: `[]`, and the cache is as before.
    ensures !(Fresh(store, CacheKey(req), env.nowMs, cfg.cacheExpirationHours) && UsableEntry(store, CacheKey(req)))
            && !env.writeOk ==>
      o.bars == Some([]) && o.store == store
  {
    var key := CacheKey(req);
    if Fresh(store, key, env.nowMs, cfg.cacheExpirationHours) && UsableEntry(store, key) then
      BarsOutcome(ReadCache(store, key).value.bars, store, [], [])
    else
      FetchLive(store, key, cfg.maxWaitTimeMs, env)
  }

  /** A successful live fetch followed, within the expiration window, by a
      second call for the same key is served from the cache: same bars, no
      requests. */
  lemma SecondCallHitsCache(store: Store, cfg: Config, req: BarRequest, req2: BarRequest, env: FetchEnv, env2: FetchEnv)
    requires FetchPages(env.remote, cfg.maxWaitTimeMs).ok && env.writeOk
    requires !Fresh(store, CacheKey(req), env.nowMs, cfg.cacheExpirationHours)
    requires SameKeyFields(req, req2)
    requires env2.nowMs - env.writeMs < cfg.cacheExpirationHours * MsPerHour
    ensures var first := GetStockBars(store, cfg, req, env);
      var second := GetStockBars(first.store, cfg, req2, env2);
      && second.bars == first.bars == Some(FetchPages(env.remote, cfg.maxWaitTimeMs).bars)
      && second.tokensSent == []
      && second.store == first.store
  {
  }

  /** A fresh entry that cannot be read or parsed, or parses to a falsy
      value, is ignored: the outcome is that of a live fetch. */
  lemma UnusableFreshEntryRefetches(store: Store, cfg: Config, req: BarRequest, env: FetchEnv)
    requires Fresh(store, CacheKey(req), env.nowMs, cfg.cacheExpirationHours)
    requires store[CacheKey(req)].content in {Unparsable, Parsable(JsonNull), Parsable(JsonFalsy)}
    ensures GetStockBars(store, cfg, req, env) == FetchLive(store, CacheKey(req), cfg.maxWaitTimeMs, env)
  {
  }
}

=== FILE: cache_files.dfy ===
/** The cache file name of `getStockBars`:
    `${symbol}_${timeframe}_${limit}_${adjustment}_${feed}.json`. */
module CacheFiles {
  import opened Market

  predicate IsDigit(ch: char)
  {
    '0' <= ch <= '9'
  }

  predicate AllDigits(s: string)
  {
    forall i :: 0 <= i < |s| ==> IsDigit(s[i])
  }

  /** The decimal digits of a natural number: JavaScript's rendering of an
      integer in a template string for values below 10^21, beyond which it
      switches to exponent notation. The default `limit` is 1000. */
  function Decimal(n: nat): (s: string)
    ensures |s| > 0 && AllDigits(s)
    ensures n < 10 <==> |s| == 1
  {
    if n < 10 then ['0' + n as char]
    else Decimal(n / 10) + ['0' + (n % 10) as char]
  }

  /** Reads decimal digits back into a number. */
  function ParseDecimal(s: string): nat
    requires AllDigits(s)
  {
    if |s| == 0 then 0
    else ParseDecimal(s[..|s| - 1]) * 10 + (s[|s| - 1] - '0') as nat
  }

  lemma {:induction false} DecimalRoundTrip(n: nat)
    ensures ParseDecimal(Decimal(n)) == n
  {
    if n >= 10 {
      var s := Decimal(n);
      assert s[..|s| - 1] == Decimal(n / 10);
      DecimalRoundTrip(n / 10);
    }
  }

  const Separator: char := '_'

  /** `head` followed by the separator and the rest of the name. */
  function Field(head: string, rest: string): string
  {
    head + [Separator] + rest
  }

  /** The cache file name of a request. The start and end dates are not
      parameters of it. */
  function CacheKey(req: BarRequest): (key: string)
    ensures |key| > |req.symbol| && key[..|req.symbol|] == req.symbol
    ensures |key| >= 5 && key[|key| - 5..] == ".json"
  {
    Field(req.symbol, Field(req.timeframe, Field(Decimal(req.limit), Field(req.adjustment, req.feed + ".json"))))
  }

  /** The five request parameters the key is built from. */
  predicate SameKeyFields(a: BarRequest, b: BarRequest)
  {
    && a.symbol == b.symbol
    && a.timeframe == b.timeframe
    && a.limit == b.limit
    && a.adjustment == b.adjustment
    && a.feed == b.feed
  }

  /** The string parameters contain no separator, so the key splits back
      into them. */
  predicate Separable(req: BarRequest)
  {
    && Separator !in req.symbol
    && Separator !in req.timeframe
    && Separator !in req.adjustment
    && Separator !in req.feed
  }

  lemma FieldLayout(head: string, rest: string)
    ensures |Field(head, rest)| == |head| + 1 + |rest|
    ensures Field(head, rest)[|head|] == Separator
    ensures forall i :: 0 <= i < |head| ==> Field(head, rest)[i] == head[i]
  {
  }

  /** A name with a separator-free head determines both head and rest. */
  lemma FieldInjective(a: string, b: string, c: string, d: string)
    requires Separator !in a && Separator !in c
    requires Field(a, b) == Field(c, d)
    ensures a == c && b == d
  {
    var s := Field(a, b);
    if |a| < |c| {
      FieldLayout(a, b);
      FieldLayout(c, d);
      assert false;
    } else if |c| < |a| {
      FieldLayout(a, b);
      FieldLayout(c, d);
      assert false;
    }
    assert a == s[..|a|] == c;
    assert b == s[|a| + 1..] == d;
  }

  lemma DecimalInjective(m: nat, n: nat)
    requires Decimal(m) == Decimal(n)
    ensures m == n
  {
    DecimalRoundTrip(m);
    DecimalRoundTrip(n);
  }

  lemma DigitsAreSeparable(s: string)
    requires AllDigits(s)
    ensures Separator !in s
  {
  }

  /** Requests that agree on the five key parameters share a cache file,
      whatever their dates. */
  lemma KeyIgnoresDates(a: BarRequest, b: BarRequest)
    requires SameKeyFields(a, b)
    ensures CacheKey(a) == CacheKey(b)
  {
  }

  /** With separator-free parameters, two requests share a cache file
      exactly when they agree on the five key parameters. */
  lemma KeyDeterminesFields(a: BarRequest, b: BarRequest)
    requires Separable(a) && Separable(b)
    ensures CacheKey(a) == CacheKey(b) <==> SameKeyFields(a, b)
  {
    if CacheKey(a) == CacheKey(b) {
      var la, lb := Decimal(a.limit), Decimal(b.limit);
      DigitsAreSeparable(la);
      DigitsAreSeparable(lb);
      var ra := Field(a.timeframe, Field(la, Field(a.adjustment, a.feed + ".json")));
      var rb := Field(b.timeframe, Field(lb, Field(b.adjustment, b.feed + ".json")));
      FieldInjective(a.symbol, ra, b.symbol, rb);
      var qa := Field(la, Field(a.adjustment, a.feed + ".json"));
      var qb := Field(lb, Field(b.adjustment, b.feed + ".json"));
      FieldInjective(a.timeframe, qa, b.timeframe, qb);
      FieldInjective(la, Field(a.adjustment, a.feed + ".json"), lb, Field(b.adjustment, b.feed + ".json"));
      DecimalInjective(a.limit, b.limit);
      FieldInjective(a.adjustment, a.feed + ".json", b.adjustment, b.feed + ".json");
      var fa, fb := a.feed + ".json", b.feed + ".json";
      assert a.feed == fa[..|fa| - 5] == fb[..|fb| - 5] == b.feed;
    }
  }
}

=== FILE: legacy.dfy ===
/** `index.js`, the older single-file version of the script: the same
    listing, fetch and selection with hard-coded settings, no `/` filter, a
    cache hit that does not survive a bad cache file, and results without a
    `name`. */
module Legacy {
  import opened Wrappers
  import opened Seqs
  import opened Market
  import opened Utils
  import opened CacheFiles
  import opened Pagination
  import opened Api
  import opened Signal

  /** `CACHE_EXPIRATION_HOURS = 8` and `MAX_WAIT_TIME_MS = 333`. */
  const LegacyConfig: Config := Config(8.0, 333.0)

  /** The legacy `getStocks` filter: tradable, whatever the symbol. */
  predicate LegacyListable(a: Asset)
  {
    a.tradable
  }

  function GetStocksLegacy(listing: Listing): (stocks: seq<Asset>)
    ensures listing.ListingOk? ==> forall a :: a in stocks <==> a in listing.assets && a.tradable
    ensures listing.ListingOk? ==>
      forall a :: multiset(stocks)[a] == if a.tradable then multiset(listing.assets)[a] else 0
    ensures !listing.ListingOk? ==> stocks == []
  {
    if listing.ListingOk? then FilterCounts(listing.assets, LegacyListable); Filter(listing.assets, LegacyListable) else []
  }

  predicate NoSlash(a: Asset)
  {
    '/' !in a.symbol
  }

  /** The newer listing is the legacy listing with `/` symbols removed. */
  lemma NewListingDropsSlashes(listing: Listing)
    ensures GetStocks(listing) == Filter(GetStocksLegacy(listing), NoSlash)
  {
    if listing.ListingOk? {
      FilterFilter(listing.assets, LegacyListable, NoSlash, Listable);
    }
  }

  /** On a listing without `/` symbols the two versions agree. */
  lemma ListingsAgreeWithoutSlashes(listing: Listing)
    requires listing.ListingOk? ==> forall a :: a in listing.assets ==> NoSlash(a)
    ensures GetStocksLegacy(listing) == GetStocks(listing)
  {
    NewListingDropsSlashes(listing);
    if listing.ListingOk? {
      FilterKeepsAll(GetStocksLegacy(listing), NoSlash);
    }
  }

  /** The legacy cache hit: `JSON.parse(await fs.readFile(..)).bars`, where
      a read or parse error, or reading `.bars` of `null`, reaches the outer
      catch and yields `[]`. */
  function LegacyCachedBars(file: CacheFile): (bars: Option<seq<Bar>>)
    // An unreadable file, unparsable text or `null` throws: `[]`.
    ensures file.content in {Unparsable, Parsable(JsonNull)} ==> bars == Some([])
    // Another falsy value has no `bars`: `undefined`.
    ensures file.content == Parsable(JsonFalsy) ==> bars == None
    // A truthy value gives its `bars`, as the newer cache read does.
    ensures file.content.Parsable? && file.content.json.JsonTruthy? ==> bars == file.content.json.bars
  {
    match file.content
    case Unparsable => Some([])
    case Parsable(JsonNull) => Some([])
    case Parsable(JsonFalsy) => None
    case Parsable(JsonTruthy(bars)) => bars
  }

  /** The legacy write creates only the cache directory itself, so a file
      name with a `/` (from a multi-leg symbol such as `BRK/B`) points into a
      sub-directory that does not exist and `fs.writeFile` fails. */
  function LegacyWritable(key: string): (writable: bool)
    ensures writable <==> forall i :: 0 <= i < |key| ==> key[i] != '/'
  {
    '/' !in key
  }

  /** The legacy `getStockBars`: any fresh cache file ends the call. */
  function GetStockBarsLegacy(store: Store, req: BarRequest, env: FetchEnv): (o: BarsOutcome)
    ensures Fresh(store, CacheKey(req), env.nowMs, LegacyConfig.cacheExpirationHours) ==>
      && CacheKey(req) in store
      && o == BarsOutcome(LegacyCachedBars(store[CacheKey(req)]), store, [], [])
    ensures !Fresh(store, CacheKey(req), env.nowMs, LegacyConfig.cacheExpirationHours) ==>
      && o.tokensSent == FetchPages(env.remote, LegacyConfig.maxWaitTimeMs).tokensSent
      && o.sleepsMs == FetchPages(env.remote, LegacyConfig.maxWaitTimeMs).sleepsMs
    ensures !Fresh(store, CacheKey(req), env.nowMs, LegacyConfig.cacheExpirationHours) ==>
      |o.tokensSent| > 0 && o.tokensSent[0] == None
    ensures o.store != store ==>
      && FetchPages(env.remote, LegacyConfig.maxWaitTimeMs).ok
      && '/' !in CacheKey(req)
      && o.store == WriteCache(store, CacheKey(req), JsonTruthy(o.bars), env.writeMs)
    // A file name with `/` fetched live never gets bars: the cache write throws.
    ensures !LegacyWritable(CacheKey(req)) && !Fresh(store, CacheKey(req), env.nowMs, LegacyConfig.cacheExpirationHours) ==>
      o.bars == Some([]) && o.store == store
  {
    var key := CacheKey(req);
    if Fresh(store, key, env.nowMs, LegacyConfig.cacheExpirationHours) then
      BarsOutcome(LegacyCachedBars(store[key]), store, [], [])
    else
      SlashInKey(req);
      FetchLive(store, key, LegacyConfig.maxWaitTimeMs, env.(writeOk := env.writeOk && LegacyWritable(key)))
  }

  lemma SlashInKey(req: BarRequest)
    ensures '/' in req.symbol ==> '/' in CacheKey(req)
  {
  }

  /** Outside a fresh cache hit, and on a fresh readable hit, the legacy
      fetcher behaves exactly as the newer one with the same settings, for
      any cache file name without a `/`. */
  lemma FetchersAgree(store: Store, req: BarRequest, env: FetchEnv)
    requires !Fresh(store, CacheKey(req), env.nowMs, LegacyConfig.cacheExpirationHours) || UsableEntry(store, CacheKey(req))
    requires '/' !in CacheKey(req)
    ensures GetStockBarsLegacy(store, req, env) == GetStockBars(store, LegacyConfig, req, env)
  {
  }

  /** A `/` symbol whose live fetch succeeds: the newer fetcher returns and
      caches the bars, the legacy one returns `[]` and caches nothing. */
  lemma SlashSymbolDiverges(store: Store, req: BarRequest, env: FetchEnv)
    requires '/' in req.symbol
    requires !Fresh(store, CacheKey(req), env.nowMs, LegacyConfig.cacheExpirationHours)
    requires FetchPages(env.remote, LegacyConfig.maxWaitTimeMs).ok && env.writeOk
    ensures GetStockBarsLegacy(store, req, env).bars == Some([])
    ensures GetStockBarsLegacy(store, req, env).store == store
    ensures GetStockBars(store, LegacyConfig, req, env).bars == Some(FetchPages(env.remote, LegacyConfig.maxWaitTimeMs).bars)
  {
  }

  /** A fresh cache file that cannot be read or parsed: the legacy fetcher
      returns `[]` without a request, the newer one fetches live. */
  lemma CorruptFreshCacheDiverges(store: Store, req: BarRequest, env: FetchEnv)
    requires Fresh(store, CacheKey(req), env.nowMs, LegacyConfig.cacheExpirationHours)
    requires store[CacheKey(req)].content == Unparsable
    ensures GetStockBarsLegacy(store, req, env) == BarsOutcome(Some([]), store, [], [])
    ensures |GetStockBars(store, LegacyConfig, req, env).tokensSent| > 0
  {
  }

  /** The legacy record: the same fields without `name`. */
  function LegacyResultOf(c: Candidate): (r: SignalResult)
    requires Selected(c)
    ensures r.name == None
    ensures r.symbol == c.asset.symbol && r.currentPrice == c.bars.value[|c.bars.value| - 1].c
    ensures r.ema200 == c.indicators.ema200[|c.indicators.ema200| - 1]
    ensures r.macd == c.indicators.macd[|c.indicators.macd| - 1]
    ensures SignalRule(r.currentPrice, r.ema200, r.macd)
  {
    SignalResult(c.asset.symbol, None, Last(c.bars.value).c, Last(c.indicators.ema200), Last(c.indicators.macd))
  }

  /** The legacy `results` array: same skip, same rule. */
  function SelectLegacy(cands: seq<Candidate>): (results: seq<SignalResult>)
    ensures |results| <= |cands|
    decreases |cands|
  {
    if |cands| == 0 then []
    else (if Selected(cands[0]) then [LegacyResultOf(cands[0])] else []) + SelectLegacy(cands[1..])
  }

  /** The legacy results are exactly the nameless records of the selected
      candidates. */
  lemma {:induction false} SelectLegacyMembers(cands: seq<Candidate>)
    ensures forall r :: r in SelectLegacy(cands) ==> r.name == None
    ensures forall c :: c in cands && Selected(c) ==> LegacyResultOf(c) in SelectLegacy(cands)
    ensures forall r :: r in SelectLegacy(cands) ==> exists c :: c in cands && Selected(c) && r == LegacyResultOf(c)
    decreases |cands|
  {
    if |cands| > 0 {
      SelectLegacyMembers(cands[1..]);
      var head := if Selected(cands[0]) then [LegacyResultOf(cands[0])] else [];
      assert SelectLegacy(cands) == head + SelectLegacy(cands[1..]);
      assert cands == [cands[0]] + cands[1..];
    }
  }

  function EraseName(r: SignalResult): SignalResult
  {
    r.(name := None)
  }

  /** The legacy results are the newer results with the name dropped. */
  lemma {:induction false} LegacyResultsDropName(cands: seq<Candidate>)
    ensures SelectLegacy(cands) == Map(Select(cands), EraseName)
    decreases |cands|
  {
    if |cands| > 0 {
      LegacyResultsDropName(cands[1..]);
      var c := cands[0];
      var head := if Selected(c) then [ResultOf(c)] else [];
      var legacyHead := if Selected(c) then [LegacyResultOf(c)] else [];
      assert Select(cands) == head + Select(cands[1..]);
      assert SelectLegacy(cands) == legacyHead + SelectLegacy(cands[1..]);
      MapAppend(head, Select(cands[1..]), EraseName);
      assert legacyHead == Map(head, EraseName);
    }
  }

  /** One legacy iteration, with the legacy fetcher. */
  function VisitLegacy(stock: Asset, store: Store, env: FetchEnv, indicators: seq<Bar> -> Indicators): (out: (Candidate, Store))
    ensures var fetched := GetStockBarsLegacy(store, DefaultRequest(stock.symbol, env.startDate, env.endDate), env);
      && out.0.asset == stock
      && out.0.bars == fetched.bars
      && out.1 == fetched.store
      && (EnoughHistory(fetched.bars) ==> out.0.indicators == indicators(fetched.bars.value))
  {
    var fetched := GetStockBarsLegacy(store, DefaultRequest(stock.symbol, env.startDate, env.endDate), env);
    var ind := if EnoughHistory(fetched.bars) then indicators(fetched.bars.value) else Indicators([], []);
    (Candidate(stock, fetched.bars, ind), fetched.store)
  }

  /** The legacy loop, with the legacy fetcher. */
  function GatherLegacy(stocks: seq<Asset>, i: nat, store: Store, world: World): (out: (seq<Candidate>, Store))
    requires i <= |stocks|
    ensures |out.0| == |stocks| - i
    ensures forall j :: 0 <= j < |out.0| ==> out.0[j].asset == stocks[i + j]
    decreases |stocks| - i
  {
    if i == |stocks| then ([], store)
    else
      var visited := VisitLegacy(stocks[i], store, world.fetches(i), world.indicators);
      var rest := GatherLegacy(stocks, i + 1, visited.1, world);
      ([visited.0] + rest.0, rest.1)
  }

  /** The legacy `main`: results are only logged; no report is written. */
  function RunMainLegacy(store: Store, listing: Listing, world: World): (out: (seq<SignalResult>, Store))
    ensures forall r :: r in out.0 ==> r.name == None
    ensures forall r :: r in out.0 ==>
      && SignalRule(r.currentPrice, r.ema200, r.macd)
      && listing.ListingOk?
      && exists a :: a in listing.assets && a.tradable && a.symbol == r.symbol
    ensures |out.0| <= |GetStocksLegacy(listing)|
  {
    var stocks := GetStocksLegacy(listing);
    var gathered := GatherLegacy(stocks, 0, store, world);
    SelectLegacyMembers(gathered.0);
    assert forall c :: c in gathered.0 ==> c.asset in stocks;
    (SelectLegacy(gathered.0), gathered.1)
  }

  /** The legacy result symbols follow listing order. */
  lemma LegacyResultsInListingOrder(store: Store, listing: Listing, world: World)
    ensures IsSubsequence(Map(RunMainLegacy(store, listing, world).0, ResultSymbol),
                          Map(GetStocksLegacy(listing), (a: Asset) => a.symbol))
  {
    var stocks := GetStocksLegacy(listing);
    var cands := GatherLegacy(stocks, 0, store, world).0;
    LegacyResultsDropName(cands);
    var results := Select(cands);
    assert Map(Map(results, EraseName), ResultSymbol) == Map(results, ResultSymbol);
    ResultsInCandidateOrder(cands);
    assert Map(cands, SymbolOf) == Map(stocks, (a: Asset) => a.symbol);
  }
}

=== FILE: market.dfy ===
/** The records the script passes around: assets from the listing endpoint,
    price bars from the bars endpoint, indicator series and signal results. */
module Market {
  import opened Wrappers

  /** One entry of the asset listing; only the fields the script reads. */
  datatype Asset = Asset(symbol: string, name: string, tradable: bool)

  /** One OHLCV bar as the bars endpoint returns it (`t`, `o`, `h`, `l`,
      `c`, `v`, `n`, `vw`); only the close `c` is read by the script. */
  datatype Bar = Bar(t: string, o: real, h: real, l: real, c: real, v: int, n: int, vw: real)

  /** One point of the MACD series (`{MACD, signal, histogram}`). */
  datatype MacdPoint = MacdPoint(macd: real, signal: real, histogram: real)

  /** What the indicator library returns for a bar series: the EMA(200)
      series and the MACD(12, 26, 9) series, both aligned to the tail. */
  datatype Indicators = Indicators(ema200: seq<real>, macd: seq<MacdPoint>)

  /** A record pushed onto `results`. The legacy script pushes it without
      a `name` property, which is `None` here. */
  datatype SignalResult = SignalResult(
    symbol: string,
    name: Option<string>,
    currentPrice: real,
    ema200: real,
    macd: MacdPoint)

  /** The numeric settings the fetcher reads from the environment. */
  datatype Config = Config(cacheExpirationHours: real, maxWaitTimeMs: real)

  /** The parameters of one bar request (`getStockBars` arguments plus the
      computed start and end dates). */
  datatype BarRequest = BarRequest(
    symbol: string,
    timeframe: string,
    limit: nat,
    adjustment: string,
    feed: string,
    startDate: string,
    endDate: string)

  /** `getStockBars(symbol)` with its default arguments. */
  function DefaultRequest(symbol: string, startDate: string, endDate: string): BarRequest
  {
    BarRequest(symbol, "4H", 1000, "raw", "sip", startDate, endDate)
  }

  function Last<T>(s: seq<T>): T
    requires |s| > 0
  {
    s[|s| - 1]
  }
}

=== FILE: pagination.dfy ===
/** The paginated bar fetch of `getStockBars` (the `do … while (pageToken)`
    loop). The remote is a finite sequence of exchanges: the i-th request
    meets the i-th response together with how long it took. A request past
    the end of the sequence meets a transport failure, so the remote stops
    answering rather than paging forever. */
module Pagination {
  import opened Wrappers
  import opened Market

  datatype Response =
    | PageOk(bars: seq<Bar>, nextPageToken: Option<string>)
    | HttpError(status: int)   // `response.ok` is false: logged, then thrown
    | MalformedBody            // `response.json()` throws on an ok response
    | TransportError           // `fetch` itself rejects

  datatype Exchange = Exchange(response: Response, elapsedMs: real)

  /** What one loop run did: whether it ended on a tokenless page, the bars
      it accumulated in `allBars`, the `page_token` sent with each request
      (None when the parameter was left out) and each throttle sleep. */
  datatype PageRun = PageRun(ok: bool, bars: seq<Bar>, tokensSent: seq<Option<string>>, sleepsMs: seq<real>)

  /** JavaScript truthiness of `pageToken`: null, undefined and "" are false. */
  predicate Truthy(token: Option<string>)
  {
    token.Some? && token.value != ""
  }

  /** The loop asks for another page after this response. */
  predicate Continues(r: Response)
  {
    r.PageOk? && Truthy(r.nextPageToken)
  }

  function Respond(remote: seq<Exchange>, i: nat): Exchange
  {
    if i < |remote| then remote[i] else Exchange(TransportError, 0.0)
  }

  /** The `next_page_token` of the `j`-th response, as the loop reads it. */
  function TokenAfter(remote: seq<Exchange>, j: nat): Option<string>
  {
    var r := Respond(remote, j).response;
    if r.PageOk? then r.nextPageToken else None
  }

  /** `Math.max(0, MAX_WAIT_TIME_MS - (endTime - startTime))`: the sleep
      after a request, so that consecutive request starts are at least
      `maxWaitMs` apart and no further. */
  function ThrottleDelay(maxWaitMs: real, elapsedMs: real): (d: real)
    ensures d >= 0.0
    ensures elapsedMs + d >= maxWaitMs
    ensures elapsedMs >= maxWaitMs ==> d == 0.0
    ensures elapsedMs < maxWaitMs ==> elapsedMs + d == maxWaitMs
  {
    if maxWaitMs - elapsedMs > 0.0 then maxWaitMs - elapsedMs else 0.0
  }

  /** The index of the first response after which the loop stops. */
  function FirstStop(remote: seq<Exchange>, i: nat): (k: nat)
    ensures i <= k
    ensures k <= |remote| || k == i
    ensures !Continues(Respond(remote, k).response)
    ensures forall j :: i <= j < k ==> Continues(Respond(remote, j).response)
    decreases |remote| - i
  {
    if !Continues(Respond(remote, i).response) then i else FirstStop(remote, i + 1)
  }

  function PageBars(r: Response): seq<Bar>
  {
    if r.PageOk? then r.bars else []
  }

  /** The bars of responses `i` to `k`, concatenated in response order. */
  function BarsBetween(remote: seq<Exchange>, i: nat, k: nat): seq<Bar>
    decreases k - i
  {
    if k < i then [] else PageBars(Respond(remote, i).response) + BarsBetween(remote, i + 1, k)
  }

  /** The bars of a run of pages, concatenated in order. */
  function ConcatPages(pages: seq<Exchange>): seq<Bar>
  {
    if |pages| == 0 then [] else PageBars(pages[0].response) + ConcatPages(pages[1..])
  }

  /** The loop from request `i` on, entered with `token` as `pageToken`.
      Its contract is `PagesFromRun`, kept apart so that proofs which only
      unfold the loop do not carry it. */
  function PagesFrom(remote: seq<Exchange>, i: nat, token: Option<string>, maxWaitMs: real): (run: PageRun)
    ensures |run.tokensSent| > 0 && run.tokensSent[0] == token
    // Every answered request is followed by a sleep; a rejected fetch is not.
    ensures |run.sleepsMs| <= |run.tokensSent| <= |run.sleepsMs| + 1
    ensures run.ok ==> |run.sleepsMs| == |run.tokensSent|
    decreases |remote| - i
  {
    var e := Respond(remote, i);
    match e.response
    case TransportError => PageRun(false, [], [token], [])
    case HttpError(_) => PageRun(false, [], [token], [ThrottleDelay(maxWaitMs, e.elapsedMs)])
    case MalformedBody => PageRun(false, [], [token], [ThrottleDelay(maxWaitMs, e.elapsedMs)])
    case PageOk(bars, next) =>
      var delay := ThrottleDelay(maxWaitMs, e.elapsedMs);
      if Truthy(next) then
        var rest := PagesFrom(remote, i + 1, next, maxWaitMs);
        PageRun(rest.ok, bars + rest.bars, [token] + rest.tokensSent, [delay] + rest.sleepsMs)
      else
        PageRun(true, bars, [token], [delay])
  }

  /** The loop from request `i` sends `token` first and then each response's
      token up to the first stop `k`; it succeeds exactly when response `k`
      is a page, collects the bars of responses `i` to `k`, and sleeps the
      throttle delay after every request that got an answer. */
  lemma PagesFromRun(remote: seq<Exchange>, i: nat, token: Option<string>, maxWaitMs: real)
    ensures var run := PagesFrom(remote, i, token, maxWaitMs); var k := FirstStop(remote, i);
      && |run.tokensSent| == k - i + 1
      && run.tokensSent[0] == token
      && (forall j :: i <= j < k ==> run.tokensSent[j - i + 1] == TokenAfter(remote, j))
      && (forall j :: 1 <= j < |run.tokensSent| ==> Truthy(run.tokensSent[j]))
      && (run.ok <==> Respond(remote, k).response.PageOk?)
      && run.bars == BarsBetween(remote, i, k)
      && |run.sleepsMs| == (if Respond(remote, k).response.TransportError? then k - i else k - i + 1)
      && (forall j :: 0 <= j < |run.sleepsMs| ==>
            run.sleepsMs[j] == ThrottleDelay(maxWaitMs, Respond(remote, i + j).elapsedMs))
  {
    PagesFromTokens(remote, i, token, maxWaitMs);
    PagesFromOutcome(remote, i, token, maxWaitMs);
    PagesFromSleeps(remote, i, token, maxWaitMs);
  }

  /** The tokens sent: `token`, then each continuing response's token. */
  lemma PagesFromTokens(remote: seq<Exchange>, i: nat, token: Option<string>, maxWaitMs: real)
    ensures var run := PagesFrom(remote, i, token, maxWaitMs); var k := FirstStop(remote, i);
      && |run.tokensSent| == k - i + 1
      && (forall j :: i <= j < k ==> run.tokensSent[j - i + 1] == TokenAfter(remote, j))
      && (forall j :: 1 <= j < |run.tokensSent| ==> Truthy(run.tokensSent[j]))
  {
    PagesFromTokenCount(remote, i, token, maxWaitMs);
    PagesFromTokenValues(remote, i, token, maxWaitMs);
    var sent := PagesFrom(remote, i, token, maxWaitMs).tokensSent;
    forall j | 1 <= j < |sent|
      ensures Truthy(sent[j])
    {
      assert sent[j] == TokenAfter(remote, i + j - 1);
    }
  }

  lemma {:induction false} PagesFromTokenCount(remote: seq<Exchange>, i: nat, token: Option<string>, maxWaitMs: real)
    ensures |PagesFrom(remote, i, token, maxWaitMs).tokensSent| == FirstStop(remote, i) - i + 1
    decreases |remote| - i
  {
    var e := Respond(remote, i);
    if Continues(e.response) {
      PagesFromTokenCount(remote, i + 1, e.response.nextPageToken, maxWaitMs);
    }
  }

  lemma {:induction false} PagesFromTokenValues(remote: seq<Exchange>, i: nat, token: Option<string>, maxWaitMs: real)
    ensures var sent := PagesFrom(remote, i, token, maxWaitMs).tokensSent;
      forall j :: i <= j < FirstStop(remote, i) && j - i + 1 < |sent| ==> sent[j - i + 1] == TokenAfter(remote, j)
    decreases |remote| - i
  {
    var e := Respond(remote, i);
    if Continues(e.response) {
      PagesFromTokenValues(remote, i + 1, e.response.nextPageToken, maxWaitMs);
    }
  }

  /** Success and bars are decided by the responses up to the stop. */
  lemma {:induction false} PagesFromOutcome(remote: seq<Exchange>, i: nat, token: Option<string>, maxWaitMs: real)
    ensures var run := PagesFrom(remote, i, token, maxWaitMs); var k := FirstStop(remote, i);
      && (run.ok <==> Respond(remote, k).response.PageOk?)
      && run.bars == BarsBetween(remote, i, k)
    decreases |remote| - i
  {
    var e := Respond(remote, i);
    if Continues(e.response) {
      PagesFromOutcome(remote, i + 1, e.response.nextPageToken, maxWaitMs);
    }
  }

  /** One throttle sleep per answered request, in request order. */
  lemma {:induction false} PagesFromSleeps(remote: seq<Exchange>, i: nat, token: Option<string>, maxWaitMs: real)
    ensures var run := PagesFrom(remote, i, token, maxWaitMs); var k := FirstStop(remote, i);
      && |run.sleepsMs| == (if Respond(remote, k).response.TransportError? then k - i else k - i + 1)
      && (forall j :: 0 <= j < |run.sleepsMs| ==>
            run.sleepsMs[j] == ThrottleDelay(maxWaitMs, Respond(remote, i + j).elapsedMs))
    decreases |remote| - i
  {
    var e := Respond(remote, i);
    if Continues(e.response) {
      PagesFromSleeps(remote, i + 1, e.response.nextPageToken, maxWaitMs);
    }
  }

  /** The whole loop: `pageToken` starts as `null`. */
  function FetchPages(remote: seq<Exchange>, maxWaitMs: real): (run: PageRun)
    ensures var k := FirstStop(remote, 0);
      && |run.tokensSent| == k + 1
      && run.tokensSent[0] == None
      && (forall j :: 1 <= j < |run.tokensSent| ==> Truthy(run.tokensSent[j]))
      && (run.ok <==> Respond(remote, k).response.PageOk?)
      && (run.ok ==> k < |remote| && run.bars == ConcatPages(remote[..k + 1]))
      && |run.sleepsMs| == (if Respond(remote, k).response.TransportError? then k else k + 1)
      && (forall j :: 0 <= j < |run.sleepsMs| ==> run.sleepsMs[j] == ThrottleDelay(maxWaitMs, remote[j].elapsedMs))
      && (forall d :: d in run.sleepsMs ==> d >= 0.0)
  {
    var run := PagesFrom(remote, 0, None, maxWaitMs);
    var k := FirstStop(remote, 0);
    PagesFromRun(remote, 0, None, maxWaitMs);
    if run.ok then
      BarsBetweenIsConcat(remote, 0, k);
      run
    else
      run
  }

  lemma {:induction false} BarsBetweenIsConcat(remote: seq<Exchange>, i: nat, k: nat)
    requires i <= k + 1 && k < |remote|
    ensures BarsBetween(remote, i, k) == ConcatPages(remote[i..k + 1])
    decreases k + 1 - i
  {
    if i <= k {
      assert remote[i..k + 1][1..] == remote[i + 1..k + 1];
      BarsBetweenIsConcat(remote, i + 1, k);
    }
  }

  /** The stop is the first response that does not continue the loop. */
  lemma FirstStopAt(remote: seq<Exchange>, i: nat, k: nat)
    requires i <= k && !Continues(Respond(remote, k).response)
    requires forall j :: i <= j < k ==> Continues(Respond(remote, j).response)
    ensures FirstStop(remote, i) == k
  {
  }

  /** A remote of N pages carrying a token on all but the last takes exactly
      N requests and yields their bars in order. */
  lemma PaginationTerminates(remote: seq<Exchange>, maxWaitMs: real)
    requires |remote| > 0
    requires forall j :: 0 <= j < |remote| - 1 ==> Continues(remote[j].response)
    requires remote[|remote| - 1].response.PageOk?
    requires !Truthy(remote[|remote| - 1].response.nextPageToken)
    ensures FetchPages(remote, maxWaitMs).ok
    ensures |FetchPages(remote, maxWaitMs).tokensSent| == |remote|
    ensures FetchPages(remote, maxWaitMs).bars == ConcatPages(remote)
  {
    FirstStopAt(remote, 0, |remote| - 1);
    assert remote[..|remote|] == remote;
  }

  /** The loop never looks past the first response it stops at. */
  lemma StopIgnoresLaterResponses(remote: seq<Exchange>, more: seq<Exchange>, i: nat, token: Option<string>, maxWaitMs: real)
    requires FirstStop(remote, i) < |remote|
    ensures PagesFrom(remote + more, i, token, maxWaitMs) == PagesFrom(remote, i, token, maxWaitMs)
  {
    forall j | i <= j <= FirstStop(remote, i)
      ensures Respond(remote + more, j) == Respond(remote, j)
    {
      assert (remote + more)[j] == remote[j];
    }
    AgreeingRemotes(remote, remote + more, i, token, maxWaitMs);
  }

  /** Two remotes that give the same responses up to the stop give the same run. */
  lemma {:induction false} AgreeingRemotes(r1: seq<Exchange>, r2: seq<Exchange>, i: nat, token: Option<string>, maxWaitMs: real)
    requires forall j :: i <= j <= FirstStop(r1, i) ==> Respond(r2, j) == Respond(r1, j)
    ensures PagesFrom(r2, i, token, maxWaitMs) == PagesFrom(r1, i, token, maxWaitMs)
    decreases |r1| - i
  {
    var e := Respond(r1, i);
    assert Respond(r2, i) == e;
    if Continues(e.response) {
      var next := e.response.nextPageToken;
      assert FirstStop(r1, i + 1) == FirstStop(r1, i);
      AgreeingRemotes(r1, r2, i + 1, next, maxWaitMs);
      var rest := PagesFrom(r1, i + 1, next, maxWaitMs);
      var run := PageRun(rest.ok, e.response.bars + rest.bars, [token] + rest.tokensSent,
                         [ThrottleDelay(maxWaitMs, e.elapsedMs)] + rest.sleepsMs);
      assert PagesFrom(r1, i, token, maxWaitMs) == run;
      assert PagesFrom(r2, i, token, maxWaitMs) == run;
    }
  }

  /** Any non-ok response ends the loop without success, even after pages
      that did succeed. */
  lemma ErrorAborts(remote: seq<Exchange>, maxWaitMs: real, k: nat)
    requires k < |remote| && !remote[k].response.PageOk?
    requires forall j :: 0 <= j < k ==> Continues(remote[j].response)
    ensures !FetchPages(remote, maxWaitMs).ok
    ensures |FetchPages(remote, maxWaitMs).tokensSent| == k + 1
  {
    FirstStopAt(remote, 0, k);
  }
}

=== FILE: report.dfy ===
/** `report.js`: the array-of-arrays tables handed to the spreadsheet
    library, and the cell formats applied to the resulting sheet. */
module Report {
  import opened Wrappers
  import opened Seqs
  import opened Market

  /** A spreadsheet cell value; `Blank` is an undefined value, for which no
      cell is created. */
  datatype Cell = Blank | Text(s: string) | Num(x: real) | Flag(b: bool)

  type Row = seq<Cell>
  type Table = seq<Row>

  function TextRow(labels: seq<string>): (row: Row)
    ensures |row| == |labels|
    ensures forall j :: 0 <= j < |labels| ==> row[j] == Text(labels[j])
  {
    Map(labels, (l: string) => Text(l))
  }

  function NameCell(name: Option<string>): Cell
  {
    if name.Some? then Text(name.value) else Blank
  }

  const MatchingHeader: seq<string> := ["Symbol", "Name", "Current Price", "200-Period EMA", "MACD", "Signal"]

  function ResultRow(r: SignalResult): (row: Row)
    ensures |row| == |MatchingHeader|
  {
    [Text(r.symbol), NameCell(r.name), Num(r.currentPrice), Num(r.ema200), Num(r.macd.macd), Num(r.macd.signal)]
  }

  /** The `ws_data` of `generateExcelReport`. */
  function MatchingStocksTable(results: seq<SignalResult>): (t: Table)
    ensures |t| == |results| + 1
    ensures t[0] == TextRow(MatchingHeader)
    ensures forall i :: 0 <= i < |results| ==> t[i + 1] == ResultRow(results[i])
  {
    [TextRow(MatchingHeader)] + Map(results, ResultRow)
  }

  /** `Object.keys` and property values of a dumped record, kept as its
      properties in enumeration order. */
  type Record = seq<(string, Cell)>

  function Keys(rec: Record): seq<string>
  {
    Map(rec, (p: (string, Cell)) => p.0)
  }

  function Values(rec: Record): Row
  {
    Map(rec, (p: (string, Cell)) => p.1)
  }

  /** `record[key]`: the value of the key, undefined when it is absent. */
  function Lookup(rec: Record, key: string): (v: Cell)
    ensures key !in Keys(rec) ==> v == Blank
    ensures v != Blank ==> exists j :: 0 <= j < |rec| && rec[j] == (key, v)
    decreases |rec|
  {
    if |rec| == 0 then Blank
    else if rec[0].0 == key then rec[0].1
    else
      assert Keys(rec) == [rec[0].0] + Keys(rec[1..]);
      Lookup(rec[1..], key)
  }

  predicate DistinctKeys(rec: Record)
  {
    forall i, j :: 0 <= i < j < |rec| ==> rec[i].0 != rec[j].0
  }

  lemma {:induction false} LookupOwnKey(rec: Record, j: nat)
    requires DistinctKeys(rec) && j < |rec|
    ensures Lookup(rec, rec[j].0) == rec[j].1
    decreases j
  {
    if j > 0 {
      assert rec[0].0 != rec[j].0;
      assert rec[1..][j - 1] == rec[j];
      LookupOwnKey(rec[1..], j - 1);
    }
  }

  /** `Object.keys(data[0])` throws on an empty array. */
  datatype DumpError = NoFirstRecord

  function DumpRow(keys: seq<string>, rec: Record): (row: Row)
    ensures |row| == |keys|
    ensures forall j :: 0 <= j < |keys| ==> row[j] == Lookup(rec, keys[j])
  {
    Map(keys, (k: string) => Lookup(rec, k))
  }

  /** The `transformed` array of `dumpxls`: the first record's keys, then
      each record's values under those keys. */
  function DumpTable(data: seq<Record>): (r: Result<Table, DumpError>)
    ensures r.Failure? <==> |data| == 0
    ensures r.Success? ==> |r.value| == |data| + 1 && r.value[0] == TextRow(Keys(data[0]))
    ensures r.Success? ==> forall i :: 0 <= i < |data| ==> r.value[i + 1] == DumpRow(Keys(data[0]), data[i])
  {
    if |data| == 0 then Failure(NoFirstRecord)
    else
      var keys := Keys(data[0]);
      Success([TextRow(keys)] + Map(data, (rec: Record) => DumpRow(keys, rec)))
  }

  /** When every record has the first record's keys, in the same order and
      without repeats, each data row is exactly that record's values. */
  lemma DumpRoundTrip(data: seq<Record>)
    requires |data| > 0
    requires forall i :: 0 <= i < |data| ==> Keys(data[i]) == Keys(data[0]) && DistinctKeys(data[i])
    ensures DumpTable(data).Success?
    ensures forall i :: 0 <= i < |data| ==> DumpTable(data).value[i + 1] == Values(data[i])
  {
    var keys := Keys(data[0]);
    forall i | 0 <= i < |data|
      ensures DumpRow(keys, data[i]) == Values(data[i])
    {
      forall j | 0 <= j < |keys|
        ensures DumpRow(keys, data[i])[j] == Values(data[i])[j]
      {
        assert keys[j] == Keys(data[i])[j] == data[i][j].0;
        LookupOwnKey(data[i], j);
      }
    }
  }

  /** A record of the debug report, with the four rule flags. */
  datatype DebugRecord = DebugRecord(
    symbol: string,
    name: Option<string>,
    currentPrice: real,
    ema200: real,
    macd: MacdPoint,
    isCurrentPriceAboveEMA200: bool,
    isMACDLessThanSignalDayA: bool,
    isMACDGreaterThanSignalDayB: bool,
    isMACDAndSignalNegative: bool)

  const DebugHeader: seq<string> := MatchingHeader + [
    "isCurrentPriceAboveEMA200", "isMACDLessThanSignalDayA",
    "isMACDGreaterThanSignalDayB", "isMACDAndSignalNegative"]

  function DebugRow(d: DebugRecord): (row: Row)
    ensures |row| == |DebugHeader|
  {
    [Text(d.symbol), NameCell(d.name), Num(d.currentPrice), Num(d.ema200), Num(d.macd.macd), Num(d.macd.signal),
     Flag(d.isCurrentPriceAboveEMA200), Flag(d.isMACDLessThanSignalDayA),
     Flag(d.isMACDGreaterThanSignalDayB), Flag(d.isMACDAndSignalNegative)]
  }

  /** The `ws_data` of `saveDebugReport`. */
  function DebugTable(records: seq<DebugRecord>): (t: Table)
    ensures |t| == |records| + 1
    ensures t[0] == TextRow(DebugHeader) && |t[0]| == 10
    ensures forall i :: 1 <= i < |t| ==> |t[i]| == 10
    ensures forall i :: 0 <= i < |records| ==>
      t[i + 1][6..] == [Flag(records[i].isCurrentPriceAboveEMA200), Flag(records[i].isMACDLessThanSignalDayA),
                        Flag(records[i].isMACDGreaterThanSignalDayB), Flag(records[i].isMACDAndSignalNegative)]
  {
    [TextRow(DebugHeader)] + Map(records, DebugRow)
  }

  /** The debug report's first six columns are the matching report's. */
  lemma DebugExtendsMatching(d: DebugRecord)
    ensures DebugRow(d)[..6] == ResultRow(SignalResult(d.symbol, d.name, d.currentPrice, d.ema200, d.macd))
    ensures DebugHeader[..6] == MatchingHeader
  {
  }

  /** The styles the two report writers give a cell. */
  datatype CellFormat =
    | HeaderStyle     // bold 12pt, centred, light-yellow fill
    | CurrencyFormat  // number format `$#,##0.00`, right-aligned
    | NumberFormat    // number format `#,##0.00`, right-aligned

  /** The style of the cell in row `r`, column `c`; None leaves it as it is. */
  function FormatOf(r: nat, c: nat): (f: Option<CellFormat>)
    ensures (r == 0 || c == 0) <==> f == Some(HeaderStyle)
    ensures f == Some(CurrencyFormat) <==> r > 0 && (c == 2 || c == 3)
    ensures f == Some(NumberFormat) <==> r > 0 && c >= 4
    ensures f == None <==> r > 0 && c == 1
  {
    if r == 0 || c == 0 then Some(HeaderStyle)
    else if c == 2 || c == 3 then Some(CurrencyFormat)
    else if c >= 4 then Some(NumberFormat)
    else None
  }

  /** `ws[cell_ref]` exists: the cell is in the table and its value defined. */
  function CellExists(t: Table, r: nat, c: nat): (exists_: bool)
    // Positions outside the table and undefined values are skipped.
    ensures r >= |t| || c >= |t[r]| ==> !exists_
    ensures r < |t| && c < |t[r]| ==> (exists_ <==> !t[r][c].Blank?)
  {
    r < |t| && c < |t[r]| && t[r][c] != Blank
  }

  predicate Formatted(t: Table, r: nat, c: nat)
  {
    CellExists(t, r, c) && FormatOf(r, c).Some?
  }

  /** `formats` gives exactly the existing cells their style. */
  ghost predicate FormatsOf(t: Table, formats: map<(nat, nat), CellFormat>)
  {
    && (forall p :: p in formats <==> Formatted(t, p.0, p.1))
    && (forall p :: p in formats ==> Some(formats[p]) == FormatOf(p.0, p.1))
  }

  /** The number of columns of the sheet's range. */
  function Width(t: Table): (w: nat)
    ensures forall r :: 0 <= r < |t| ==> |t[r]| <= w
  {
    if |t| == 0 then 0
    else var rest := Width(t[1..]); if |t[0]| > rest then |t[0]| else rest
  }

  /** The formatting loop: column by column, row by row over the range,
      skipping cells that do not exist. */
  method ApplyFormats(t: Table) returns (formats: map<(nat, nat), CellFormat>)
    ensures FormatsOf(t, formats)
  {
    formats := map[];
    var width := Width(t);
    var c: nat := 0;
    while c < width
      invariant c <= width
      invariant forall p :: p in formats <==> Formatted(t, p.0, p.1) && p.1 < c
      invariant forall p :: p in formats ==> Some(formats[p]) == FormatOf(p.0, p.1)
    {
      var r: nat := 0;
      while r < |t|
        invariant r <= |t|
        invariant forall p :: p in formats <==> Formatted(t, p.0, p.1) && (p.1 < c || (p.1 == c && p.0 < r))
        invariant forall p :: p in formats ==> Some(formats[p]) == FormatOf(p.0, p.1)
      {
        if c < |t[r]| && t[r][c] != Blank {
          var f := FormatOf(r, c);
          if f.Some? {
            formats := formats[(r, c) := f.value];
          }
        }
        r := r + 1;
      }
      c := c + 1;
    }
  }

  datatype Sheet = Sheet(rows: Table, formats: map<(nat, nat), CellFormat>)

  /** `generateExcelReport` up to the spreadsheet library call. */
  method GenerateExcelReport(results: seq<SignalResult>) returns (sheet: Sheet)
    ensures sheet.rows == MatchingStocksTable(results)
    ensures FormatsOf(sheet.rows, sheet.formats)
  {
    var rows := MatchingStocksTable(results);
    var formats := ApplyFormats(rows);
    sheet := Sheet(rows, formats);
  }

  /** `saveDebugReport` up to the spreadsheet library call. */
  method SaveDebugReport(records: seq<DebugRecord>) returns (sheet: Sheet)
    ensures sheet.rows == DebugTable(records)
    ensures FormatsOf(sheet.rows, sheet.formats)
  {
    var rows := DebugTable(records);
    var formats := ApplyFormats(rows);
    sheet := Sheet(rows, formats);
  }

  /** In the matching-stocks sheet every price and indicator value gets a
      number format, the symbol column the header style, and the name
      column nothing. */
  lemma MatchingSheetFormats(results: seq<SignalResult>, formats: map<(nat, nat), CellFormat>, i: nat)
    requires FormatsOf(MatchingStocksTable(results), formats)
    requires 0 < i <= |results|
    ensures (i, 0) in formats && formats[(i, 0)] == HeaderStyle
    ensures (i, 1) !in formats
    ensures (i, 2) in formats && formats[(i, 2)] == CurrencyFormat
    ensures (i, 3) in formats && formats[(i, 3)] == CurrencyFormat
    ensures (i, 4) in formats && formats[(i, 4)] == NumberFormat
    ensures (i, 5) in formats && formats[(i, 5)] == NumberFormat
  {
    ResultRowFormats(MatchingStocksTable(results), formats, i, results[i - 1]);
  }

  lemma ResultRowFormats(t: Table, formats: map<(nat, nat), CellFormat>, i: nat, res: SignalResult)
    requires FormatsOf(t, formats)
    requires 0 < i < |t| && t[i] == ResultRow(res)
    ensures (i, 0) in formats && formats[(i, 0)] == HeaderStyle
    ensures (i, 1) !in formats
    ensures (i, 2) in formats && formats[(i, 2)] == CurrencyFormat
    ensures (i, 3) in formats && formats[(i, 3)] == CurrencyFormat
    ensures (i, 4) in formats && formats[(i, 4)] == NumberFormat
    ensures (i, 5) in formats && formats[(i, 5)] == NumberFormat
  {
    FormattedCell(t, formats, i, 0);
    FormattedCell(t, formats, i, 2);
    FormattedCell(t, formats, i, 3);
    FormattedCell(t, formats, i, 4);
    FormattedCell(t, formats, i, 5);
    UnformattedCell(t, formats, i, 1);
  }

  lemma UnformattedCell(t: Table, formats: map<(nat, nat), CellFormat>, r: nat, c: nat)
    requires FormatsOf(t, formats)
    requires FormatOf(r, c).None?
    ensures (r, c) !in formats
  {
    assert !Formatted(t, (r, c).0, (r, c).1);
  }

  lemma FormattedCell(t: Table, formats: map<(nat, nat), CellFormat>, r: nat, c: nat)
    requires FormatsOf(t, formats)
    requires CellExists(t, r, c) && FormatOf(r, c).Some?
    ensures (r, c) in formats && formats[(r, c)] == FormatOf(r, c).value
  {
    assert Formatted(t, (r, c).0, (r, c).1);
  }

  /** The debug sheet's flag columns lie past column 4 and so receive the
      number format, although they hold booleans. */
  lemma DebugFlagsGetNumberFormat(records: seq<DebugRecord>, formats: map<(nat, nat), CellFormat>, i: nat, c: nat)
    requires FormatsOf(DebugTable(records), formats)
    requires 0 < i <= |records| && 6 <= c < 10
    ensures DebugTable(records)[i][c].Flag?
    ensures (i, c) in formats && formats[(i, c)] == NumberFormat
  {
    var t := DebugTable(records);
    assert t[i][6..][c - 6] == t[i][c];
    FormattedCell(t, formats, i, c);
  }
}

=== FILE: seqs.dfy ===
/** Sequence helpers: `Array.prototype.filter` and `Array.prototype.map`,
    and the order-preserving subsequence relation they are judged by. */
module Seqs {

  /** `s.filter(p)`: the elements of `s` that satisfy `p`, in order. */
  function Filter<T(!new)>(s: seq<T>, p: T -> bool): (r: seq<T>)
    ensures |r| <= |s|
    decreases |s|
  {
    if |s| == 0 then []
    else (if p(s[0]) then [s[0]] else []) + Filter(s[1..], p)
  }

  /** `Filter` keeps every copy of a kept element and no copy of a rejected
      one: it is a sub-multiset of `s`, not merely a subset. */
  lemma {:induction false} FilterCounts<T(!new)>(s: seq<T>, p: T -> bool)
    ensures forall x :: multiset(Filter(s, p))[x] == if p(x) then multiset(s)[x] else 0
    ensures forall x :: x in Filter(s, p) <==> x in s && p(x)
    decreases |s|
  {
    if |s| > 0 {
      FilterCounts(s[1..], p);
      assert s == [s[0]] + s[1..];
      assert multiset(s) == multiset([s[0]]) + multiset(s[1..]);
      assert Filter(s, p) == (if p(s[0]) then [s[0]] else []) + Filter(s[1..], p);
    }
  }

  /** `s.map(f)`. */
  function Map<T, U>(s: seq<T>, f: T -> U): (r: seq<U>)
    ensures |r| == |s|
    ensures forall i :: 0 <= i < |s| ==> r[i] == f(s[i])
  {
    seq(|s|, i requires 0 <= i < |s| => f(s[i]))
  }

  lemma MapAppend<T, U>(a: seq<T>, b: seq<T>, f: T -> U)
    ensures Map(a + b, f) == Map(a, f) + Map(b, f)
  {
  }

  /** `idx` picks, in strictly increasing positions of `b`, the elements of `a`. */
  ghost predicate Embedding<T>(idx: seq<int>, a: seq<T>, b: seq<T>)
  {
    && |idx| == |a|
    && (forall j :: 0 <= j < |idx| ==> 0 <= idx[j] < |b| && a[j] == b[idx[j]])
    && (forall j, k :: 0 <= j < k < |idx| ==> idx[j] < idx[k])
  }

  /** `a` is `b` with some elements removed and the rest kept in order. */
  ghost predicate IsSubsequence<T>(a: seq<T>, b: seq<T>)
  {
    exists idx :: Embedding(idx, a, b)
  }

  /** Positions of `s` (offset by `base`) that `Filter` keeps. */
  function FilterIndices<T(!new)>(s: seq<T>, p: T -> bool, base: int): (idx: seq<int>)
    ensures |idx| == |Filter(s, p)|
    ensures forall j :: 0 <= j < |idx| ==> base <= idx[j] < base + |s|
    decreases |s|
  {
    if |s| == 0 then []
    else (if p(s[0]) then [base] else []) + FilterIndices(s[1..], p, base + 1)
  }

  lemma {:induction false} FilterIndicesIncrease<T(!new)>(s: seq<T>, p: T -> bool, base: int)
    ensures var idx := FilterIndices(s, p, base);
      forall j, k :: 0 <= j < k < |idx| ==> idx[j] < idx[k]
    decreases |s|
  {
    if |s| > 0 {
      FilterIndicesIncrease(s[1..], p, base + 1);
      assert FilterIndices(s, p, base) == (if p(s[0]) then [base] else []) + FilterIndices(s[1..], p, base + 1);
    }
  }

  lemma {:induction false} FilterIndicesPick<T(!new)>(s: seq<T>, p: T -> bool, base: int, b: seq<T>)
    requires 0 <= base && base + |s| <= |b|
    requires forall i :: 0 <= i < |s| ==> s[i] == b[base + i]
    ensures var idx := FilterIndices(s, p, base);
      forall j :: 0 <= j < |idx| ==> Filter(s, p)[j] == b[idx[j]]
    decreases |s|
  {
    if |s| > 0 {
      FilterIndicesPick(s[1..], p, base + 1, b);
      assert FilterIndices(s, p, base) == (if p(s[0]) then [base] else []) + FilterIndices(s[1..], p, base + 1);
      assert Filter(s, p) == (if p(s[0]) then [s[0]] else []) + Filter(s[1..], p);
    }
  }

  /** Filtering keeps the surviving elements in their original order. */
  lemma FilterIsSubsequence<T(!new)>(s: seq<T>, p: T -> bool)
    ensures IsSubsequence(Filter(s, p), s)
  {
    FilterIndicesIncrease(s, p, 0);
    FilterIndicesPick(s, p, 0, s);
    assert Embedding(FilterIndices(s, p, 0), Filter(s, p), s);
  }

  /** Mapping both sides preserves an order-preserving selection. */
  lemma MapIsSubsequence<T, U>(a: seq<T>, b: seq<T>, f: T -> U)
    requires IsSubsequence(a, b)
    ensures IsSubsequence(Map(a, f), Map(b, f))
  {
    var idx :| Embedding(idx, a, b);
    assert Embedding(idx, Map(a, f), Map(b, f));
  }

  /** Filtering by `p` and then by `q` is filtering once by their
      conjunction `both`. */
  lemma {:induction false} FilterFilter<T(!new)>(s: seq<T>, p: T -> bool, q: T -> bool, both: T -> bool)
    requires forall x :: both(x) == (p(x) && q(x))
    ensures Filter(Filter(s, p), q) == Filter(s, both)
    decreases |s|
  {
    if |s| > 0 {
      FilterFilter(s[1..], p, q, both);
      FilterAppend((if p(s[0]) then [s[0]] else []), Filter(s[1..], p), q);
    }
  }

  lemma {:induction false} FilterAppend<T(!new)>(a: seq<T>, b: seq<T>, p: T -> bool)
    ensures Filter(a + b, p) == Filter(a, p) + Filter(b, p)
    decreases |a|
  {
    if |a| == 0 {
      assert a + b == b;
    } else {
      var head := if p(a[0]) then [a[0]] else [];
      assert (a + b)[0] == a[0];
      assert (a + b)[1..] == a[1..] + b;
      FilterAppend(a[1..], b, p);
      assert Filter(a + b, p) == head + Filter(a[1..] + b, p);
      assert Filter(a, p) == head + Filter(a[1..], p);
    }
  }

  /** A filter that rejects nothing in `s` returns `s` itself. */
  lemma {:induction false} FilterKeepsAll<T(!new)>(s: seq<T>, p: T -> bool)
    requires forall x :: x in s ==> p(x)
    ensures Filter(s, p) == s
    decreases |s|
  {
    if |s| > 0 {
      FilterKeepsAll(s[1..], p);
    }
  }
}

=== FILE: signal.dfy ===
/** `main.js`: for each listed stock, fetch its bars, skip it without 200
    of them, evaluate the signal rule on the latest close, EMA and MACD
    point, collect the qualifying ones and hand them to the report. */
module Signal {
  import opened Wrappers
  import opened Seqs
  import opened Market
  import opened Utils
  import opened Api
  import Report

  const MinBars: nat := 200

  /** `if (!bars || bars.length < 200) continue;` lets these through. */
  predicate EnoughHistory(bars: Option<seq<Bar>>)
  {
    bars.Some? && |bars.value| >= MinBars
  }

  /** The four-conjunct selection rule on the latest close, the latest
      EMA(200) value and the latest MACD point. */
  function SignalRule(price: real, emaLast: real, m: MacdPoint): (signal: bool)
    // The two price conjuncts are one threshold: the larger of the EMA and 1.03 × EMA.
    ensures signal <==>
      && price > (if emaLast >= 0.0 then 1.03 * emaLast else emaLast)
      && m.signal < 0.0
      && m.signal < m.macd
  {
    && price > emaLast
    && m.macd > m.signal
    && m.signal < 0.0
    && price > 1.03 * emaLast
  }

  /** One stock as the loop sees it: the asset, what `getStockBars` returned
      and what the indicator library computed from those bars. */
  datatype Candidate = Candidate(asset: Asset, bars: Option<seq<Bar>>, indicators: Indicators)

  /** The stock is pushed onto `results`. An empty indicator series (which
      the library never yields for 200 bars) compares as undefined: false. */
  function Selected(c: Candidate): (pushed: bool)
    ensures pushed ==>
      && c.bars.Some? && |c.bars.value| >= MinBars
      && |c.indicators.ema200| > 0 && |c.indicators.macd| > 0
      && SignalRule(c.bars.value[|c.bars.value| - 1].c,
                    c.indicators.ema200[|c.indicators.ema200| - 1],
                    c.indicators.macd[|c.indicators.macd| - 1])
    // Too little history is never selected, whatever the indicators say.
    ensures !EnoughHistory(c.bars) ==> !pushed
  {
    && EnoughHistory(c.bars)
    && |c.bars.value| > 0
    && |c.indicators.ema200| > 0
    && |c.indicators.macd| > 0
    && SignalRule(Last(c.bars.value).c, Last(c.indicators.ema200), Last(c.indicators.macd))
  }

  /** The record pushed for a selected stock. */
  function ResultOf(c: Candidate): (r: SignalResult)
    requires Selected(c)
    ensures r.symbol == c.asset.symbol && r.name == Some(c.asset.name)
    ensures r.currentPrice == c.bars.value[|c.bars.value| - 1].c
    ensures r.ema200 == c.indicators.ema200[|c.indicators.ema200| - 1]
    ensures r.macd == c.indicators.macd[|c.indicators.macd| - 1]
    ensures SignalRule(r.currentPrice, r.ema200, r.macd)
  {
    SignalResult(c.asset.symbol, Some(c.asset.name), Last(c.bars.value).c, Last(c.indicators.ema200), Last(c.indicators.macd))
  }

  /** The `results` array after the loop. What it holds is `SelectMembers`. */
  function Select(cands: seq<Candidate>): (results: seq<SignalResult>)
    ensures |results| <= |cands|
    decreases |cands|
  {
    if |cands| == 0 then []
    else (if Selected(cands[0]) then [ResultOf(cands[0])] else []) + Select(cands[1..])
  }

  /** Every selected candidate has its record in the results, and every
      result is the record of a selected candidate. */
  lemma {:induction false} SelectMembers(cands: seq<Candidate>)
    ensures forall c :: c in cands && Selected(c) ==> ResultOf(c) in Select(cands)
    ensures forall r :: r in Select(cands) ==> exists c :: c in cands && Selected(c) && r == ResultOf(c)
    decreases |cands|
  {
    if |cands| > 0 {
      SelectMembers(cands[1..]);
      var head := if Selected(cands[0]) then [ResultOf(cands[0])] else [];
      assert Select(cands) == head + Select(cands[1..]);
      assert cands == [cands[0]] + cands[1..];
    }
  }

  function SymbolOf(c: Candidate): string
  {
    c.asset.symbol
  }

  function ResultSymbol(r: SignalResult): string
  {
    r.symbol
  }

  /** The result symbols are the symbols of the selected candidates, in
      loop order. */
  lemma {:induction false} SelectSymbols(cands: seq<Candidate>)
    ensures Map(Select(cands), ResultSymbol) == Map(Filter(cands, Selected), SymbolOf)
    decreases |cands|
  {
    if |cands| > 0 {
      SelectSymbols(cands[1..]);
      var c := cands[0];
      var head := if Selected(c) then [ResultOf(c)] else [];
      var kept := if Selected(c) then [c] else [];
      assert Select(cands) == head + Select(cands[1..]);
      assert Filter(cands, Selected) == kept + Filter(cands[1..], Selected);
      MapAppend(head, Select(cands[1..]), ResultSymbol);
      MapAppend(kept, Filter(cands[1..], Selected), SymbolOf);
      assert Map(head, ResultSymbol) == Map(kept, SymbolOf);
    }
  }

  /** The result symbols are the candidates' symbols with some left out, in
      their original order. */
  lemma ResultsInCandidateOrder(cands: seq<Candidate>)
    ensures IsSubsequence(Map(Select(cands), ResultSymbol), Map(cands, SymbolOf))
  {
    SelectSymbols(cands);
    FilterIsSubsequence(cands, Selected);
    MapIsSubsequence(Filter(cands, Selected), cands, SymbolOf);
  }

  /** A stock without 200 bars never yields a result, wherever it is. */
  lemma {:induction false} ShortHistoryIgnored(before: seq<Candidate>, c: Candidate, after: seq<Candidate>)
    requires !EnoughHistory(c.bars)
    ensures Select(before + [c] + after) == Select(before + after)
    decreases |before|
  {
    if |before| == 0 {
      assert before + [c] + after == [c] + after;
      assert before + after == after;
      assert ([c] + after)[0] == c && ([c] + after)[1..] == after;
      assert !Selected(c);
      assert Select([c] + after) == [] + Select(after);
    } else {
      assert (before + [c] + after)[1..] == before[1..] + [c] + after;
      assert (before + after)[1..] == before[1..] + after;
      ShortHistoryIgnored(before[1..], c, after);
    }
  }

  /** When the EMA is non-negative the 3% conjunct implies the plain
      "above the EMA" conjunct, which then decides nothing. */
  lemma AboveEmaRedundant(price: real, emaLast: real, m: MacdPoint)
    requires emaLast >= 0.0
    ensures SignalRule(price, emaLast, m) <==> m.macd > m.signal && m.signal < 0.0 && price > 1.03 * emaLast
  {
  }

  /** With a negative EMA the plain conjunct still matters: a price 1%
      below the EMA clears the 3% conjunct but not the plain one. */
  lemma AboveEmaNeededWhenNegative()
    ensures var m := MacdPoint(-1.0, -2.0, 1.0);
      !SignalRule(-101.0, -100.0, m) && -101.0 > 1.03 * -100.0
  {
  }

  /** Only the signal line has to be negative: a non-negative MACD value
      above a negative signal still qualifies. */
  lemma MacdMayBeNonNegative()
    ensures SignalRule(110.0, 100.0, MacdPoint(0.5, -0.5, 1.0))
  {
  }

  /** The outside world of one run: what each `getStockBars` call meets, by
      call number, and the indicator library as a function of the bars. */
  datatype World = World(fetches: nat -> FetchEnv, indicators: seq<Bar> -> Indicators)

  /** One iteration: fetch the stock's bars with the default query and,
      when there are enough of them, compute the indicators. */
  function Visit(stock: Asset, store: Store, cfg: Config, env: FetchEnv, indicators: seq<Bar> -> Indicators): (out: (Candidate, Store))
    ensures var fetched := GetStockBars(store, cfg, DefaultRequest(stock.symbol, env.startDate, env.endDate), env);
      && out.0.asset == stock
      && out.0.bars == fetched.bars
      && out.1 == fetched.store
      && (EnoughHistory(fetched.bars) ==> out.0.indicators == indicators(fetched.bars.value))
  {
    var fetched := GetStockBars(store, cfg, DefaultRequest(stock.symbol, env.startDate, env.endDate), env);
    var ind := if EnoughHistory(fetched.bars) then indicators(fetched.bars.value) else Indicators([], []);
    (Candidate(stock, fetched.bars, ind), fetched.store)
  }

  /** The loop over `stocks[i..]`, threading the cache through the calls. */
  function Gather(stocks: seq<Asset>, i: nat, store: Store, cfg: Config, world: World): (out: (seq<Candidate>, Store))
    requires i <= |stocks|
    ensures |out.0| == |stocks| - i
    ensures forall j :: 0 <= j < |out.0| ==> out.0[j].asset == stocks[i + j]
    decreases |stocks| - i
  {
    if i == |stocks| then ([], store)
    else
      var visited := Visit(stocks[i], store, cfg, world.fetches(i), world.indicators);
      var rest := Gather(stocks, i + 1, visited.1, cfg, world);
      ([visited.0] + rest.0, rest.1)
  }

  /** The results, the report table built from them, and the final cache. */
  datatype MainRun = MainRun(results: seq<SignalResult>, report: Report.Table, store: Store)

  /** `main`: list, loop, then one report over the complete results. */
  function RunMain(store: Store, cfg: Config, listing: Listing, world: World): (run: MainRun)
    ensures forall r :: r in run.results ==>
      listing.ListingOk? && exists a :: a in listing.assets && Listable(a) && a.symbol == r.symbol && r.name == Some(a.name)
    ensures run.report == Report.MatchingStocksTable(run.results)
  {
    var stocks := GetStocks(listing);
    var gathered := Gather(stocks, 0, store, cfg, world);
    var results := Select(gathered.0);
    assert forall c :: c in gathered.0 ==> c.asset in stocks;
    ResultsFromAssets(gathered.0, stocks);
    MainRun(results, Report.MatchingStocksTable(results), gathered.1)
  }

  /** Each result names the asset of the candidate it came from. */
  lemma ResultsFromAssets(cands: seq<Candidate>, assets: seq<Asset>)
    requires forall c :: c in cands ==> c.asset in assets
    ensures forall r :: r in Select(cands) ==>
      exists a :: a in assets && a.symbol == r.symbol && r.name == Some(a.name)
  {
    SelectMembers(cands);
    forall r | r in Select(cands)
      ensures exists a :: a in assets && a.symbol == r.symbol && r.name == Some(a.name)
    {
      var c :| c in cands && Selected(c) && r == ResultOf(c);
      assert c.asset in assets;
    }
  }

  /** The result symbols follow listing order. */
  lemma ResultsInListingOrder(store: Store, cfg: Config, listing: Listing, world: World)
    ensures IsSubsequence(Map(RunMain(store, cfg, listing, world).results, ResultSymbol),
                          Map(GetStocks(listing), (a: Asset) => a.symbol))
  {
    var stocks := GetStocks(listing);
    var cands := Gather(stocks, 0, store, cfg, world).0;
    ResultsInCandidateOrder(cands);
    assert Map(cands, SymbolOf) == Map(stocks, (a: Asset) => a.symbol);
  }
}

=== FILE: utils.dfy ===
/** The on-disk bar cache of `utils.js`: a directory of JSON files whose
    modification time is the only freshness signal. The file system is a map
    from cache file name to file; JSON text is abstracted to what `JSON.parse`
    yields, as far as the callers can tell values apart. */
module Utils {
  import opened Wrappers
  import opened Market

  /** The value `JSON.parse` produced from a cache file. */
  datatype CacheJson =
    | JsonNull                              // `null`: falsy, reading `.bars` throws
    | JsonFalsy                             // `false`, `0` or `""`: falsy, `.bars` is undefined
    | JsonTruthy(bars: Option<seq<Bar>>)    // any truthy value; `bars` is None when absent

  /** A file either parses, or reading or parsing it throws. */
  datatype FileContent = Parsable(json: CacheJson) | Unparsable

  datatype CacheFile = CacheFile(content: FileContent, mtimeMs: real)

  type Store = map<string, CacheFile>

  const MsPerHour: real := 3600000.0

  /** `fs.stat(file).catch(() => null)`, reduced to the modification time. */
  function Stat(store: Store, path: string): (stats: Option<real>)
    ensures stats.Some? <==> path in store
  {
    if path in store then Some(store[path].mtimeMs) else None
  }

  /** `isCacheValid`: there are file stats and the file is strictly younger
      than the expiration window. */
  function IsCacheValid(stats: Option<real>, nowMs: real, expirationHours: real): (valid: bool)
    // Equivalently: the file was modified after the cutoff `now - window`.
    ensures valid <==>
      stats.Some? && stats.value > nowMs - expirationHours * MsPerHour
  {
    stats.Some? && nowMs - stats.value < expirationHours * MsPerHour
  }

  /** `readCache`: the parsed content, or `None` when the file is missing,
      unreadable or not JSON. It never throws. */
  function ReadCache(store: Store, path: string): (r: Option<CacheJson>)
    ensures r.None? <==> path !in store || store[path].content.Unparsable?
    ensures r.Some? ==> store[path].content == Parsable(r.value)
  {
    if path in store && store[path].content.Parsable? then Some(store[path].content.json) else None
  }

  /** `writeCache`: creates the directory and (over)writes one file, which
      then carries the write time as its modification time. */
  function WriteCache(store: Store, path: string, json: CacheJson, nowMs: real): (s: Store)
    ensures s.Keys == store.Keys + {path}
  {
    store[path := CacheFile(Parsable(json), nowMs)]
  }

  /** Without file stats the cache is never valid. */
  lemma NoStatsNeverValid(nowMs: real, expirationHours: real)
    ensures !IsCacheValid(None, nowMs, expirationHours)
  {
  }

  /** Freshness is strict: a file exactly as old as the window is stale. */
  lemma ExpiryBoundaryIsStale(mtimeMs: real, expirationHours: real)
    ensures !IsCacheValid(Some(mtimeMs), mtimeMs + expirationHours * MsPerHour, expirationHours)
  {
  }

  /** Freshness is monotone in the age: a file valid at some age is valid at
      every smaller age. */
  lemma ValidityMonotone(mtimeMs: real, nowMs: real, earlierMs: real, expirationHours: real)
    requires IsCacheValid(Some(mtimeMs), nowMs, expirationHours)
    requires earlierMs <= nowMs
    ensures IsCacheValid(Some(mtimeMs), earlierMs, expirationHours)
  {
  }

  /** Reading right after writing returns what was written, whatever was
      there before, and the file is as young as the write. */
  lemma WriteThenRead(store: Store, path: string, json: CacheJson, nowMs: real)
    ensures ReadCache(WriteCache(store, path, json, nowMs), path) == Some(json)
    ensures Stat(WriteCache(store, path, json, nowMs), path) == Some(nowMs)
  {
  }

  /** A write touches only its own file. */
  lemma WriteLeavesOthers(store: Store, path: string, other: string, json: CacheJson, nowMs: real)
    requires other != path
    ensures ReadCache(WriteCache(store, path, json, nowMs), other) == ReadCache(store, other)
    ensures Stat(WriteCache(store, path, json, nowMs), other) == Stat(store, other)
  {
  }

  /** A second write to the same file replaces the first; nothing is merged. */
  lemma WriteOverwrites(store: Store, path: string, j1: CacheJson, t1: real, j2: CacheJson, t2: real)
    ensures WriteCache(WriteCache(store, path, j1, t1), path, j2, t2) == WriteCache(store, path, j2, t2)
  {
  }
}

=== FILE: wrappers.dfy ===
/** Failure-carrying values used across the model in place of JavaScript's
    `null`/`undefined` and thrown exceptions. */
module Wrappers {

  /** `None` stands for a JavaScript `null` or `undefined`. */
  datatype Option<+T> = None | Some(value: T)

  /** A computation that either produced a value or threw. */
  datatype Result<+T, +E> = Success(value: T) | Failure(error: E)
}
